=== FILE: README.md ===
# SAMP hub core: transmissions, lockfile lifecycle, metadata, Web Profile

A Dafny model of four sequential pieces of the jsamp implementation of the
IVOA Simple Application Messaging Protocol (SAMP) hub:

- **Transmissions** (`transmission.dfy`). This is the monitor's record of one
  message send. It covers whether the send is done, the status shown for it,
  and the one-shot done-time latch. The wall clock reading is a parameter.
  A history lemma shows that the latched time is the clock reading of the
  first change that left the record done.
- **HubRunner** (`hub_runner.dfy`). This is the Standard Profile lockfile
  lifecycle (section 4.3 of the IVOA SAMP 1.3 standard). Startup refuses to
  run beside a live hub, deletes a stale lockfile and publishes this hub's
  record. Shutdown is idempotent and deletes the lockfile only while the
  file still holds this runner's secret. The lockfile is an
  `Option<LockFileContent>`. The liveness probe (the `samp.hub.isAlive`
  XML-RPC call) is an oracle `isAlive: string -> bool`.
- **Metadata** (`metadata.dfy`). These are the five well-known application
  metadata keys (section 3.5 of SAMP 1.3) with their typed setters and
  getters. It also covers the metadata check and the `asMetadata` coercion.
  The general SAMP map check and the URL check are predicate parameters.
- **WebHubProfile** (`web_hub_profile.dfy`). This covers the Web Profile
  server factory: its defaults, the log-type validation and the log-type
  dispatch to server variants. It also covers the policy handlers, the
  key-generator parameters, and the idempotent start/stop lifecycle.
  Servers, sockets and handlers are opaque tokens.

`wrappers.dfy` holds `Option` (a Java reference that may be null),
`Result` and `Outcome` (a call that may throw).

Constants that Transmission.java, HubRunner.java and WebHubProfile.java take
from `Response`, `LockInfo` and `WebClientProfile` come from the SAMP 1.3
standard. These are the response status strings
`samp.ok`, `samp.warning` and `samp.error`, the lockfile keys `samp.secret`
and `samp.hub.xmlrpc.url`, and the Web Profile port 21012 with path `/`.

Behaviour of the code as written that the model keeps:

- A notify is done from construction, but its done time stays at
  `Long.MAX_VALUE` until the first change runs the latch
  (`Transmissions.NotifyDoneBeforeLatch`).
- A response whose status is the literal string `??` is shown exactly like
  a response with no status (`Transmissions.ResponseStatus`).
- `setLogType("")` is refused, yet the dispatch in `createSampXmlRpcServer`
  accepts `""` as the plain server.
- If the XML-RPC server fails to start, the stale lockfile has already been
  deleted (`HubRunner.Start`).

## Model

| member | source | states |
|---|---|---|
| Transmissions.New | src/java/org/astrogrid/samp/gui/Transmission.java:49-59 | a new record stores the sender, receiver, message, tag and id given, has done time `Long.MAX_VALUE`, no response, error or unregistration, and is done (status Notified) exactly when both msgId and tag are null, otherwise Pending |
| Transmissions.ResponseStatus | src/java/org/astrogrid/samp/gui/Transmission.java:201-218 | samp.ok, samp.warning and samp.error map to Success, Warning and Error, each iff that status; a null status (and only it or "??") gives "Completed (??)"; any other string s gives "Completed (s)"; every response status counts as done |
| Transmissions.CompletedTextFacts | src/java/org/astrogrid/samp/gui/Transmission.java:283-298 | a "Completed (s)" status differs from every fixed status, and equals "Completed (??)" exactly when s is "??" |
| Transmissions.GetStatus | src/java/org/astrogrid/samp/gui/Transmission.java:197-229 | the status's done flag equals isDone; Pending iff not done; an error always gives Exception; otherwise a response gives its response status; Notified iff no error, no response and a notify; Orphaned iff no error, no response, not a notify and the receiver unregistered |
| Transmissions.FireChange | src/java/org/astrogrid/samp/gui/Transmission.java:256-259 | only the done time can change; once set it never changes; it is set to the clock reading exactly when it is still the sentinel and the record is done |
| Transmissions.SetResponse | src/java/org/astrogrid/samp/gui/Transmission.java:115-118 | the response (possibly null) is stored and no other field but the done time changes; a non-null response makes the record done and gives its response status when no error is set; the done time becomes the clock reading iff it was the sentinel and the record is now done, and is otherwise kept |
| Transmissions.SetError | src/java/org/astrogrid/samp/gui/Transmission.java:137-140 | the error (possibly null) is stored and no other field but the done time changes; a non-null error makes the record done with status Exception; the done time becomes the clock reading iff it was the sentinel and the record is now done, and is otherwise kept |
| Transmissions.SetSenderUnregistered | src/java/org/astrogrid/samp/gui/Transmission.java:155-158 | only the sender flag and the done time can change; the sender leaving changes neither isDone nor the status; a latched done time is kept, and the sentinel becomes the clock reading iff the record is done |
| Transmissions.SetReceiverUnregistered | src/java/org/astrogrid/samp/gui/Transmission.java:163-166 | only the receiver flag and the done time can change, so a stored response or error is kept and a done record keeps its status; the receiver leaving makes the record done and turns a pending record Orphaned; a latched done time is kept, otherwise it becomes the clock reading |
| Transmissions.DoneTimeIsFirstCompletion | src/java/org/astrogrid/samp/gui/Transmission.java:168-178 | after any history of changes the done time is the clock reading of the first change that left the record done (or `Long.MAX_VALUE` if none), unless it was already set, in which case it is kept |
| Transmissions.NotifyDoneBeforeLatch | src/java/org/astrogrid/samp/gui/Transmission.java:256-259 | a new notify is done but its done time is the sentinel until a change runs the latch |
| HubRunner.LockInfo | src/java/org/astrogrid/samp/hub/HubRunner.java:58-66 | the published record holds exactly the hub's secret, its `http://host:port/` URL, `hub.impl` and `hub.start.millis` |
| HubRunner.DecimalRoundTrip | src/java/org/astrogrid/samp/hub/HubRunner.java:65-66 | the decimal text written for a number reads back as that number |
| HubRunner.StartMillisRoundTrip | src/java/org/astrogrid/samp/hub/HubRunner.java:64-66 | the start time written into the record reads back as the clock reading |
| HubRunner.IsHubAlive | src/java/org/astrogrid/samp/hub/HubRunner.java:156-186 | the probe is true iff the lockfile reads as a record with an XML-RPC URL whose isAlive call succeeds; unreadable, null or URL-less content gives false |
| HubRunner.Start | src/java/org/astrogrid/samp/hub/HubRunner.java:31-98 | a lockfile whose hub answers aborts with "hub already running" and leaves the file as it was; that failure occurs exactly then; otherwise (taking port selection, host lookup and the lockfile write never to throw) construction succeeds iff the server starts and fails with "can't start XML-RPC server" iff it does not; on success the lockfile holds exactly this hub's record; a stale file is gone even when the server fails; a null lockfile is never touched |
| HubRunner.ShutdownRunner | src/java/org/astrogrid/samp/hub/HubRunner.java:100-146 | a second call does nothing; a first call marks the runner shut down and always stops the hub service and the server; the lockfile changes iff it is a record whose secret equals this runner's, and then it is deleted; a first call always reports what it found: no lockfile configured, a disappeared file, a deleted record, or a record overwritten with another secret |
| HubRunner.ShutdownIdempotent | src/java/org/astrogrid/samp/hub/HubRunner.java:100-104 | after one shutdown, another has no effect whatever the lockfile holds |
| HubRunner.OwnerWithdrawsRecord | src/java/org/astrogrid/samp/hub/HubRunner.java:105-113 | a hub that started and was left alone deletes its own record on shutdown |
| HubRunner.SecondHubScenario | src/java/org/astrogrid/samp/hub/HubRunner.java:34-42 | a second hub is refused while the first hub's record is present and answers; once the first hub is dead the second replaces the record with its own |
| HubRunner.OverwrittenRecordSurvives | src/java/org/astrogrid/samp/hub/HubRunner.java:114-117 | a hub whose record was replaced by another hub with a different secret leaves that record in place on shutdown |
| Metadata.WellKnownKeys | src/java/org/astrogrid/samp/Metadata.java:9-13 | the keys are exactly `samp.name`, `samp.description.text`, `samp.description.html`, `samp.icon.url` and `samp.documentation.url`, in that order; the five are pairwise distinct and all start with `samp.` |
| Metadata.Put | src/java/org/astrogrid/samp/Metadata.java:24-24 | a put stores the value under its key and leaves every other entry unchanged |
| Metadata.GetString | src/java/org/astrogrid/samp/Metadata.java:27-29 | an absent or null entry reads as null, a string reads as itself, and any list or map value makes the cast fail |
| Metadata.GetUrl | src/java/org/astrogrid/samp/Metadata.java:51-53 | a URL getter fails iff the string read fails, and then with the cast's NotAString error for that key; it yields null for a null entry, and otherwise hands the string to the URL constructor |
| Metadata.SetName | src/java/org/astrogrid/samp/Metadata.java:23-29 | getName after setName(n) returns n; no other entry changes, so both descriptions read as before |
| Metadata.SetDescriptionText | src/java/org/astrogrid/samp/Metadata.java:31-37 | the text description round-trips; no other entry changes, so name and HTML description read as before |
| Metadata.SetDescriptionHtml | src/java/org/astrogrid/samp/Metadata.java:39-45 | the HTML description round-trips; no other entry changes, so name and text description read as before |
| Metadata.SetIconUrl | src/java/org/astrogrid/samp/Metadata.java:47-49 | the icon URL string is stored as given and no other entry changes |
| Metadata.SetDocumentationUrl | src/java/org/astrogrid/samp/Metadata.java:55-57 | the documentation URL string is stored as given and no other entry changes |
| Metadata.UrlRoundTrip | src/java/org/astrogrid/samp/Metadata.java:47-61 | reading back a URL just set gives the URL constructed from the stored string, or null for null |
| Metadata.CheckUrlEntry | src/java/org/astrogrid/samp/Metadata.java:65-66 | one URL entry passes iff it is absent, null, or a string the URL predicate accepts; a list or map value fails as a non-string, a rejected string as a bad URL, each naming that key |
| Metadata.Check | src/java/org/astrogrid/samp/Metadata.java:63-67 | the check passes iff the map check passes and both the documentation and icon URL entries pass; the map check is reported first, then the documentation URL, then the icon URL; a failing URL entry reports exactly the per-entry error, so a list or map value fails as a cast (NotAString) and a rejected string as BadUrl |
| Metadata.AsMetadata | src/java/org/astrogrid/samp/Metadata.java:69-73 | null maps to null, metadata to itself, and any other map to metadata with the same entries |
| Metadata.AsMetadataIdempotent | src/java/org/astrogrid/samp/Metadata.java:69-73 | coercing the result of a coercion again changes nothing |
| WebHubProfile.DefaultFactory | src/java/org/astrogrid/samp/web/WebHubProfile.java:115-122 | defaults are: log type null, Web Profile port and path, Flash allowed, Silverlight disallowed, every origin accepted |
| WebHubProfile.SetLogType | src/java/org/astrogrid/samp/web/WebHubProfile.java:182-194 | the setter succeeds iff the value is null, "http", "rpc", "xml" or "none"; a refused value leaves the factory unchanged and reports the unknown type; no other field changes |
| WebHubProfile.VariantFor | src/java/org/astrogrid/samp/web/WebHubProfile.java:160-173 | "rpc" iff RPC logging, "xml" iff XML logging; null, "", "none" and "http" give the plain server; anything else is an unknown-log-type error; every accepted log type dispatches |
| WebHubProfile.PolicyHandlers | src/java/org/astrogrid/samp/web/WebHubProfile.java:139-158 | the Flash and Silverlight policy handlers are each installed iff their flag is set, each at most once, with Flash first, and nothing else is installed |
| WebHubProfile.CreateSampXmlRpcServer | src/java/org/astrogrid/samp/web/WebHubProfile.java:129-174 | a socket failure fails the build as a socket failure; with a bound socket an unknown log type fails as that unknown log type; otherwise it succeeds iff the log type dispatches, always does for an accepted log type, uses the logging HTTP server iff the log type is "http", and carries the factory's handlers, origin policy, port and path |
| WebHubProfile.CreateKeyGenerator | src/java/org/astrogrid/samp/web/WebHubProfile.java:97-99 | Web Profile keys use prefix "wk:" and length 24 |
| WebHubProfile.DefaultProfile | src/java/org/astrogrid/samp/web/WebHubProfile.java:53-56 | on a headless JVM construction fails (the Swing authorizer cannot be built); otherwise the default profile is stopped, with the default factory, the Swing authorizer, URL control and the Web key generator |
| WebHubProfile.Start | src/java/org/astrogrid/samp/web/WebHubProfile.java:62-76 | a running profile is left as it is; a stopped one becomes running iff its server can be built, and then holds exactly the server the factory built, with a handler for the given hub profile; a failed start reports the factory's error and changes nothing; configuration never changes |
| WebHubProfile.Stop | src/java/org/astrogrid/samp/web/WebHubProfile.java:82-89 | afterwards the profile is not running; a stopped profile is left as it is; configuration never changes |
| WebHubProfile.StartIdempotent | src/java/org/astrogrid/samp/web/WebHubProfile.java:62-66 | starting a profile that a start left running changes nothing |
| WebHubProfile.ConfigureKeepsAcceptedLogType | src/java/org/astrogrid/samp/web/WebHubProfile.java:182-194 | no sequence of setter calls can store a log type the setter refuses |
| WebHubProfile.ConfiguredFactoryBuildsServer | src/java/org/astrogrid/samp/web/WebHubProfile.java:166-173 | a factory configured only through its setters never reaches the unknown-log-type error: with a bound socket the build succeeds |

## Left out

- Transmission listeners (`addChangeListener`, `removeChangeListener`, the dispatch loop in `fireChange`), `Status.getIcon` and status colours are left out. They are Swing/AWT presentation.
- `System.currentTimeMillis` is a parameter of each change. The done-time history lemma assumes clock readings below `Long.MAX_VALUE`.
- Transmission sender and receiver are kept as plain fields; their classes are not part of this model. The `Message` is reduced to its MType string (`Transmissions.Transmission.mtype`), a `Throwable` to its message, and a `Response` to its status string.
- HubRunner.Start assumes that `SampUtils.getUnusedPort` (HubRunner.java line 44), `InetAddress.getLocalHost()` and `new URL` (lines 59-61) and `new FileOutputStream(lockfile)` (line 68) never throw. In Java each of these can throw out of the constructor, even after the server has started, and the stale lockfile has already been deleted by then (line 41). Only under this assumption does construction succeed exactly when the server starts.
- HubRunner file I/O is abstract. This covers reading and parsing (`LockInfo.readLockFile`, whose outcome is Unreadable / NoInfo / Record), writing with `LockWriter` (assumed to succeed), the comment line with the date, and file permissions.
- The shutdown re-read at HubRunner.java line 108 reads the default lockfile location rather than the runner's own file. The model treats both as the one lockfile.
- `LockInfo.java` is not part of this model. The record the `LockInfo(secret, url)` constructor makes is assumed to hold exactly the secret and the XML-RPC URL before the two informational entries are added.
- HubRunner port selection (`getUnusedPort(2112)`) is left out; the port is an input. So is the canonical host name lookup, which is also an input. The shutdown hook registration is left out too, as are the `samp.hub` handler registration and `main`.
- HubRunner stopping the hub service and the XML-RPC server is recorded as flags. What those shutdowns do (and any exception they throw, which is logged) is not modelled.
- The Web Profile socket is left out: creation and binding become the `bindOk` input. The internals of `CorsHttpServer`, `OpenPolicyResourceHandler`, `UrlTracker` and `WebHubXmlRpcHandler` are opaque tokens, and so is the HTTP server's own `start`/`stop`.
- Web Profile key randomness (`KeyGenerator.createRandom`) is left out. Only the prefix and length parameters are modelled.
- The trivial Web Profile factory getters are datatype fields. The setters other than `setLogType` are record updates in `WebHubProfile.ApplyOp`.
- `SampMap.check` and `SampUtils.checkUrl` are not part of this model. They are the parameters `mapOk` and `urlOk`, with a null URL string taken to pass `checkUrl`.
- SampMap.java is not part of this model. `SampMap.getUrl` is modelled by `Metadata.GetUrl`. This assumes that it reads the entry with the same `(String)` cast as `getString`, returns null for a null entry, and otherwise hands the string to `toUrl`. `toUrl` stands for `new URL`, with a malformed URL read as null.
- Metadata.AsMetadata: the model has value semantics, so "the same object" and "a new object with the same entries" cannot be told apart. The contract states entry equality, not object identity.
- `HubSwingClientAuthorizer`, `WrapperHubConnection` and `ClientProfile` are left out. They are a modal dialog, pure delegation and an interface declaration, with no logic to model. The one effect of the authorizer kept is that its constructor throws on a headless JVM (`WebHubProfile.DefaultProfile`).
- WebHubProfile.Start does not record the URL-translation handler that `start` adds to the HTTP server (WebHubProfile.java line 74). That handler belongs to `WebHubXmlRpcHandler`, which is not part of this model.
- WebHubProfile.Start is atomic. In Java, `xServer_` is assigned (line 67) before the handler is built and `hServer.start()` is called (lines 68-75). A throw in between leaves `isRunning()` true with no started HTTP server; the model does not represent that state.
- HubRunner.ShutdownRunner deletes a lockfile whose secret matches even when its other entries differ. With Java assertions enabled, `assert lockInfo.equals(lockInfo_)` (HubRunner.java line 111) would throw there, the error would be caught at line 119, and the file would be kept. The model follows the code with assertions disabled, the JVM default.

=== FILE: hub_runner.dfy ===
/** Standard Profile hub discovery: the lockfile a hub runner publishes on
    startup and withdraws on shutdown (section 4.3 of the IVOA SAMP 1.3
    standard).

    The file system is the content of the one lockfile, `None` when it does
    not exist. The liveness probe, the XML-RPC call `samp.hub.isAlive` against
    the URL the record advertises, is an oracle `isAlive` that says whether
    that call returns normally. */
module HubRunner {
  import opened Wrappers

  /** Lockfile keys of the Standard Profile. */
  const SECRET_KEY: string := "samp.secret"
  const XMLRPC_URL_KEY: string := "samp.hub.xmlrpc.url"
  /** Informational keys this runner adds. */
  const IMPL_KEY: string := "hub.impl"
  const START_MILLIS_KEY: string := "hub.start.millis"

  /** The key=value assignments of a lock record. */
  type LockRecord = map<string, string>

  /** What reading the lockfile yields: an I/O or parse failure, no
      information (the reader returns null), or a record. */
  datatype LockFileContent = Unreadable | NoInfo | Record(entries: LockRecord)

  /** The lockfile: absent, or present with some content. */
  type LockFile = Option<LockFileContent>

  /** The fixed facts about the hub being started: the hub service's
      secret and class name, the canonical host name and the port. */
  datatype HubConfig = HubConfig(secret: string, impl: string, host: string, port: nat)

  /** A constructed runner. `hasLockfile` is false when the runner was given
      a null lockfile. */
  datatype Runner = Runner(hasLockfile: bool, lockInfo: LockRecord, isShutdown: bool)

  datatype StartError = HubAlreadyRunning | ServerStartFailed

  /** The outcome of construction together with the lockfile afterwards
      (a stale file may already be gone when construction fails). */
  datatype Started = Started(runner: Result<Runner, StartError>, lockfile: LockFile)

  /** What shutdown found about the lockfile; it never stops shutdown. */
  datatype LockfileNote = NoLockfile | Deleted | Overwritten | Disappeared | ReadFailed

  /** The outcome of a shutdown call: the runner and lockfile after it,
      whether this call ran at all (`note` present), and whether it asked
      the hub service and the XML-RPC server to shut down. */
  datatype Shutdown = Shutdown(runner: Runner, lockfile: LockFile, note: Option<LockfileNote>,
                               stopsHub: bool, stopsServer: bool)

  function DigitChar(d: nat): (c: char)
    requires d < 10
    ensures '0' <= c <= '9'
  {
    "0123456789"[d]
  }

  function DigitValue(c: char): nat
    requires '0' <= c <= '9'
  {
    (c - '0') as nat
  }

  predicate AllDigits(s: string) {
    forall i :: 0 <= i < |s| ==> '0' <= s[i] <= '9'
  }

  /** Decimal digits of `n`, most significant first, without leading zeros. */
  function NatToDecimal(n: nat): (s: string)
    ensures |s| >= 1 && AllDigits(s)
    ensures |s| > 1 ==> s[0] != '0'
    decreases n
  {
    if n < 10 then [DigitChar(n)] else NatToDecimal(n / 10) + [DigitChar(n % 10)]
  }

  /** The value of a string of decimal digits. */
  function DecimalValue(s: string): nat
    requires AllDigits(s)
    decreases |s|
  {
    if |s| == 0 then 0 else DecimalValue(s[..|s| - 1]) * 10 + DigitValue(s[|s| - 1])
  }

  /** Long.toString. */
  function LongToString(n: int): string {
    if n < 0 then "-" + NatToDecimal(-n) else NatToDecimal(n)
  }

  /** The decimal text written for a number reads back as that number. */
  lemma {:induction false} DecimalRoundTrip(n: nat)
    ensures DecimalValue(NatToDecimal(n)) == n
    decreases n
  {
    if n >= 10 {
      var s := NatToDecimal(n);
      var prefix := NatToDecimal(n / 10);
      assert s == prefix + [DigitChar(n % 10)];
      assert s[..|s| - 1] == prefix;
      assert DigitValue(s[|s| - 1]) == n % 10;
      DecimalRoundTrip(n / 10);
    }
  }

  /** The start time written into a lock record reads back as the clock
      reading it came from. */
  lemma StartMillisRoundTrip(cfg: HubConfig, now: nat)
    ensures var text := LockInfo(cfg, now)[START_MILLIS_KEY];
            AllDigits(text) && DecimalValue(text) == now
  {
    DecimalRoundTrip(now);
  }

  /** The URL the hub's XML-RPC server is reachable at. */
  function HubUrl(host: string, port: nat): string {
    "http://" + host + ":" + NatToDecimal(port) + "/"
  }

  /** The record this runner publishes: its secret and URL, the hub
      implementation's name and the start time in milliseconds. */
  function LockInfo(cfg: HubConfig, now: int): (r: LockRecord)
    ensures r.Keys == {SECRET_KEY, XMLRPC_URL_KEY, IMPL_KEY, START_MILLIS_KEY}
    ensures r[SECRET_KEY] == cfg.secret
    ensures r[XMLRPC_URL_KEY] == HubUrl(cfg.host, cfg.port)
    ensures r[IMPL_KEY] == cfg.impl
    ensures r[START_MILLIS_KEY] == LongToString(now)
  {
    map[SECRET_KEY := cfg.secret, XMLRPC_URL_KEY := HubUrl(cfg.host, cfg.port),
        IMPL_KEY := cfg.impl, START_MILLIS_KEY := LongToString(now)]
  }

  /** The liveness probe of an existing lockfile. */
  function IsHubAlive(content: LockFileContent, isAlive: string -> bool): (alive: bool)
    ensures content.Unreadable? || content.NoInfo? ==> !alive
    ensures content.Record? && XMLRPC_URL_KEY !in content.entries ==> !alive
    ensures alive <==> content.Record? && XMLRPC_URL_KEY in content.entries
                       && isAlive(content.entries[XMLRPC_URL_KEY])
  {
    match content
    case Unreadable => false
    case NoInfo => false
    case Record(info) =>
      if XMLRPC_URL_KEY in info then isAlive(info[XMLRPC_URL_KEY]) else false
  }

  /** True when a lockfile exists whose hub answers the probe. */
  predicate LiveHubFound(hasLockfile: bool, file: LockFile, isAlive: string -> bool) {
    hasLockfile && file.Some? && IsHubAlive(file.value, isAlive)
  }

  /** Constructs a runner: refuses to start beside a live hub, removes a
      stale lockfile, starts the XML-RPC server (which may fail), and
      publishes this hub's record. A null lockfile is never touched. */
  function Start(cfg: HubConfig, hasLockfile: bool, file: LockFile,
                 isAlive: string -> bool, serverStarts: bool, now: int): (s: Started)
    ensures LiveHubFound(hasLockfile, file, isAlive) ==>
              s.runner == Failure(HubAlreadyRunning) && s.lockfile == file
    ensures s.runner.Success? <==> !LiveHubFound(hasLockfile, file, isAlive) && serverStarts
    ensures s.runner.Success? ==>
              s.runner.value == Runner(hasLockfile, LockInfo(cfg, now), false)
    ensures hasLockfile && s.runner.Success? ==> s.lockfile == Some(Record(LockInfo(cfg, now)))
    ensures s.runner == Failure(HubAlreadyRunning) <==> LiveHubFound(hasLockfile, file, isAlive)
    ensures !LiveHubFound(hasLockfile, file, isAlive) && !serverStarts ==>
              s.runner == Failure(ServerStartFailed)
    ensures hasLockfile && !LiveHubFound(hasLockfile, file, isAlive) && !serverStarts ==>
              s.lockfile.None?
    ensures !hasLockfile ==> s.lockfile == file
  {
    if hasLockfile && file.Some? && IsHubAlive(file.value, isAlive) then
      Started(Failure(HubAlreadyRunning), file)
    else
      var cleared := if hasLockfile then None else file;
      if !serverStarts then Started(Failure(ServerStartFailed), cleared)
      else
        var info := LockInfo(cfg, now);
        var written := if hasLockfile then Some(Record(info)) else cleared;
        Started(Success(Runner(hasLockfile, info, false)), written)
  }

  /** The first call deletes the lockfile only while it still holds this
      runner's secret, and always asks the hub service and the server to
      shut down, whatever happened to the lockfile. Later calls do nothing. */
  function ShutdownRunner(r: Runner, file: LockFile): (s: Shutdown)
    ensures r.isShutdown ==> s == Shutdown(r, file, None, false, false)
    ensures !r.isShutdown ==> s.runner == r.(isShutdown := true) && s.stopsHub && s.stopsServer
    ensures s.lockfile != file <==>
              && !r.isShutdown && r.hasLockfile && file.Some? && file.value.Record?
              && SECRET_KEY in file.value.entries && SECRET_KEY in r.lockInfo
              && file.value.entries[SECRET_KEY] == r.lockInfo[SECRET_KEY]
    ensures s.lockfile == file || s.lockfile.None?
    ensures !r.hasLockfile ==> s.lockfile == file
    ensures !r.isShutdown ==> s.note.Some?
    ensures s.lockfile != file ==> s.note == Some(Deleted)
    ensures !r.isShutdown && !r.hasLockfile ==> s.note == Some(NoLockfile)
    ensures !r.isShutdown && r.hasLockfile && file.None? ==> s.note == Some(Disappeared)
    ensures (&& !r.isShutdown && r.hasLockfile && file.Some? && file.value.Record?
             && SECRET_KEY in file.value.entries && SECRET_KEY in r.lockInfo
             && file.value.entries[SECRET_KEY] != r.lockInfo[SECRET_KEY]) ==>
              s.note == Some(Overwritten)
  {
    if r.isShutdown then Shutdown(r, file, None, false, false)
    else
      var r' := r.(isShutdown := true);
      if !r.hasLockfile then Shutdown(r', file, Some(NoLockfile), true, true)
      else match file
        case None => Shutdown(r', file, Some(Disappeared), true, true)
        case Some(content) =>
          if content.Record? && SECRET_KEY in content.entries && SECRET_KEY in r.lockInfo
             && content.entries[SECRET_KEY] == r.lockInfo[SECRET_KEY]
          then Shutdown(r', None, Some(Deleted), true, true)
          else if content.Record? && SECRET_KEY in content.entries && SECRET_KEY in r.lockInfo
          then Shutdown(r', file, Some(Overwritten), true, true)
          else Shutdown(r', file, Some(ReadFailed), true, true)
  }

  /** Shutdown is idempotent: a second call changes nothing, whatever the
      lockfile holds by then. */
  lemma ShutdownIdempotent(r: Runner, file: LockFile, later: LockFile)
    ensures var first := ShutdownRunner(r, file);
            ShutdownRunner(first.runner, later) == Shutdown(first.runner, later, None, false, false)
  {
  }

  /** A hub that started, published its record and was left alone
      withdraws the record on shutdown. */
  lemma {:induction false} OwnerWithdrawsRecord(cfg: HubConfig, file: LockFile,
                                                 isAlive: string -> bool, now: int)
    requires !LiveHubFound(true, file, isAlive)
    ensures var s := Start(cfg, true, file, isAlive, true, now);
            s.runner.Success?
            && ShutdownRunner(s.runner.value, s.lockfile).lockfile.None?
  {
    var s := Start(cfg, true, file, isAlive, true, now);
    assert s.lockfile == Some(Record(LockInfo(cfg, now)));
  }

  /** A second hub is refused while the first hub's record is present and
      its hub answers; once that hub is dead, the second hub replaces the
      record with its own. */
  lemma {:induction false} SecondHubScenario(first: HubConfig, second: HubConfig,
                                              isAlive: string -> bool, t1: int, t2: int)
    ensures var s1 := Start(first, true, None, isAlive, true, t1);
            var s2 := Start(second, true, s1.lockfile, isAlive, true, t2);
            && s1.lockfile == Some(Record(LockInfo(first, t1)))
            && (isAlive(HubUrl(first.host, first.port)) ==>
                 s2.runner == Failure(HubAlreadyRunning) && s2.lockfile == s1.lockfile)
            && (!isAlive(HubUrl(first.host, first.port)) ==>
                 s2.runner.Success? && s2.lockfile == Some(Record(LockInfo(second, t2))))
  {
    var s1 := Start(first, true, None, isAlive, true, t1);
    assert IsHubAlive(s1.lockfile.value, isAlive) == isAlive(HubUrl(first.host, first.port));
  }

  /** A hub whose stale record was replaced by another hub's leaves that
      other hub's record in place when it shuts down. */
  lemma {:induction false} OverwrittenRecordSurvives(mine: HubConfig, other: HubConfig,
                                                      isAlive: string -> bool, t1: int, t2: int)
    requires mine.secret != other.secret
    requires !isAlive(HubUrl(mine.host, mine.port))
    ensures var s1 := Start(mine, true, None, isAlive, true, t1);
            var s2 := Start(other, true, s1.lockfile, isAlive, true, t2);
            var down := ShutdownRunner(s1.runner.value, s2.lockfile);
            down.lockfile == s2.lockfile && down.note == Some(Overwritten)
  {
    var s1 := Start(mine, true, None, isAlive, true, t1);
    assert IsHubAlive(s1.lockfile.value, isAlive) == isAlive(HubUrl(mine.host, mine.port));
    var s2 := Start(other, true, s1.lockfile, isAlive, true, t2);
    assert s2.lockfile == Some(Record(LockInfo(other, t2)));
  }
}

=== FILE: metadata.dfy ===
/** Application metadata: a string-keyed SAMP map with typed access to the
    five well-known keys of section 3.5 of the IVOA SAMP 1.3 standard.

    A SAMP map holds strings, lists and nested maps; a Java null may also be
    stored. Setters are pure functions returning the updated map; a getter
    that meets a value of the wrong type fails as the Java cast does. */
module Metadata {
  import opened Wrappers

  const NAME_KEY: string := "samp.name"
  const DESCTEXT_KEY: string := "samp.description.text"
  const DESCHTML_KEY: string := "samp.description.html"
  const ICONURL_KEY: string := "samp.icon.url"
  const DOCURL_KEY: string := "samp.documentation.url"

  /** A value stored in a SAMP map. */
  datatype Value =
    | Null
    | Text(text: string)
    | Items(items: seq<Value>)
    | Entries(entries: map<string, Value>)

  datatype Metadata = Metadata(entries: map<string, Value>)

  datatype MetadataError =
    | NotAString(key: string)     // a cast of a list or map value to String
    | InvalidMap                  // the general SAMP map check failed
    | BadUrl(key: string)         // a URL entry is not a well-formed URL

  /** A map reference as `asMetadata` receives it: null, a metadata map, or
      some other map. */
  datatype MapRef = NullMap | MetadataMap(md: Metadata) | OtherMap(entries: map<string, Value>)

  /** The well-known keys, in declaration order. */
  function WellKnownKeys(): (keys: seq<string>)
    ensures keys == [NAME_KEY, DESCTEXT_KEY, DESCHTML_KEY, ICONURL_KEY, DOCURL_KEY]
    ensures |keys| == 5
    ensures forall i, j :: 0 <= i < j < |keys| ==> keys[i] != keys[j]
    ensures forall i :: 0 <= i < |keys| ==> |keys[i]| > 5 && keys[i][..5] == "samp."
  {
    [NAME_KEY, DESCTEXT_KEY, DESCHTML_KEY, ICONURL_KEY, DOCURL_KEY]
  }

  /** Every entry but the one under `key` is the same in `m` and `r`. */
  ghost predicate OthersUnchanged(m: Metadata, r: Metadata, key: string) {
    forall k :: k != key ==>
      (k in m.entries <==> k in r.entries) && (k in m.entries ==> m.entries[k] == r.entries[k])
  }

  /** A Java String argument stored in the map: null stays null. */
  function StringValue(s: Option<string>): Value {
    match s
    case Some(t) => Text(t)
    case None => Null
  }

  /** Map.put of one entry. */
  function Put(m: Metadata, key: string, v: Value): (r: Metadata)
    ensures key in r.entries && r.entries[key] == v
    ensures OthersUnchanged(m, r, key)
  {
    Metadata(m.entries[key := v])
  }

  /** `(String) get(key)`: an absent or null entry reads as null, any value
      that is not a string makes the cast fail. */
  function GetString(m: Metadata, key: string): (r: Result<Option<string>, MetadataError>)
    ensures r.Success? <==> key !in m.entries || m.entries[key].Null? || m.entries[key].Text?
    ensures r.Failure? ==> r.error == NotAString(key)
    ensures r == Success(None) <==> key !in m.entries || m.entries[key].Null?
    ensures forall s :: r == Success(Some(s)) <==> key in m.entries && m.entries[key] == Text(s)
  {
    if key !in m.entries then Success(None)
    else match m.entries[key]
      case Null => Success(None)
      case Text(s) => Success(Some(s))
      case _ => Failure(NotAString(key))
  }

  /** Reading a URL entry: the string, if any, handed to the URL
      constructor `toUrl` (which yields None where the Java code yields
      null). */
  function GetUrl<U>(m: Metadata, key: string, toUrl: string -> Option<U>): (r: Result<Option<U>, MetadataError>)
    ensures r.Success? <==> GetString(m, key).Success?
    ensures r.Failure? ==> r.error == NotAString(key)
    ensures GetString(m, key) == Success(None) ==> r == Success(None)
    ensures forall s :: GetString(m, key) == Success(Some(s)) ==> r == Success(toUrl(s))
  {
    match GetString(m, key)
    case Failure(e) => Failure(e)
    case Success(None) => Success(None)
    case Success(Some(s)) => Success(toUrl(s))
  }

  function GetName(m: Metadata): Result<Option<string>, MetadataError> {
    GetString(m, NAME_KEY)
  }

  function GetDescriptionText(m: Metadata): Result<Option<string>, MetadataError> {
    GetString(m, DESCTEXT_KEY)
  }

  function GetDescriptionHtml(m: Metadata): Result<Option<string>, MetadataError> {
    GetString(m, DESCHTML_KEY)
  }

  function GetIconUrl<U>(m: Metadata, toUrl: string -> Option<U>): Result<Option<U>, MetadataError> {
    GetUrl(m, ICONURL_KEY, toUrl)
  }

  function GetDocumentationUrl<U>(m: Metadata, toUrl: string -> Option<U>): Result<Option<U>, MetadataError> {
    GetUrl(m, DOCURL_KEY, toUrl)
  }

  function SetName(m: Metadata, name: Option<string>): (r: Metadata)
    ensures GetName(r) == Success(name)
    ensures OthersUnchanged(m, r, NAME_KEY)
    ensures GetDescriptionText(r) == GetDescriptionText(m)
    ensures GetDescriptionHtml(r) == GetDescriptionHtml(m)
  {
    Put(m, NAME_KEY, StringValue(name))
  }

  function SetDescriptionText(m: Metadata, text: Option<string>): (r: Metadata)
    ensures GetDescriptionText(r) == Success(text)
    ensures OthersUnchanged(m, r, DESCTEXT_KEY)
    ensures GetName(r) == GetName(m)
    ensures GetDescriptionHtml(r) == GetDescriptionHtml(m)
  {
    Put(m, DESCTEXT_KEY, StringValue(text))
  }

  function SetDescriptionHtml(m: Metadata, html: Option<string>): (r: Metadata)
    ensures GetDescriptionHtml(r) == Success(html)
    ensures OthersUnchanged(m, r, DESCHTML_KEY)
    ensures GetName(r) == GetName(m)
    ensures GetDescriptionText(r) == GetDescriptionText(m)
  {
    Put(m, DESCHTML_KEY, StringValue(html))
  }

  /** The icon URL is stored as given; reading it back hands that string to
      the URL constructor. */
  function SetIconUrl(m: Metadata, url: Option<string>): (r: Metadata)
    ensures GetString(r, ICONURL_KEY) == Success(url)
    ensures OthersUnchanged(m, r, ICONURL_KEY)
    ensures GetString(r, DOCURL_KEY) == GetString(m, DOCURL_KEY)
  {
    Put(m, ICONURL_KEY, StringValue(url))
  }

  function SetDocumentationUrl(m: Metadata, url: Option<string>): (r: Metadata)
    ensures GetString(r, DOCURL_KEY) == Success(url)
    ensures OthersUnchanged(m, r, DOCURL_KEY)
    ensures GetString(r, ICONURL_KEY) == GetString(m, ICONURL_KEY)
  {
    Put(m, DOCURL_KEY, StringValue(url))
  }

  /** Reading back a URL just set hands the stored string to the URL
      constructor. */
  lemma UrlRoundTrip<U>(m: Metadata, url: Option<string>, toUrl: string -> Option<U>)
    ensures GetIconUrl(SetIconUrl(m, url), toUrl)
              == Success(if url.Some? then toUrl(url.value) else None)
    ensures GetDocumentationUrl(SetDocumentationUrl(m, url), toUrl)
              == Success(if url.Some? then toUrl(url.value) else None)
  {
  }

  /** A URL entry passes when it is absent or null, or a string that the
      URL predicate accepts. */
  predicate UrlEntryOk(m: Metadata, key: string, urlOk: string -> bool) {
    || key !in m.entries
    || m.entries[key].Null?
    || (m.entries[key].Text? && urlOk(m.entries[key].text))
  }

  /** Checks one URL entry: a failed cast or a rejected URL is an error. */
  function CheckUrlEntry(m: Metadata, key: string, urlOk: string -> bool): (r: Outcome<MetadataError>)
    ensures r.Pass? <==> key !in m.entries || m.entries[key].Null?
                         || (m.entries[key].Text? && urlOk(m.entries[key].text))
    ensures key in m.entries && (m.entries[key].Items? || m.entries[key].Entries?) ==>
              r == Fail(NotAString(key))
    ensures key in m.entries && m.entries[key].Text? && !urlOk(m.entries[key].text) ==>
              r == Fail(BadUrl(key))
    ensures r.Fail? ==> !r.error.InvalidMap? && r.error.key == key
  {
    match GetString(m, key)
    case Failure(e) => Fail(e)
    case Success(None) => Pass
    case Success(Some(s)) => if urlOk(s) then Pass else Fail(BadUrl(key))
  }

  /** The metadata check: the general map check `mapOk` first, then the
      documentation URL, then the icon URL. */
  function Check(m: Metadata, mapOk: map<string, Value> -> bool, urlOk: string -> bool): (r: Outcome<MetadataError>)
    ensures r.Pass? <==> mapOk(m.entries) && UrlEntryOk(m, DOCURL_KEY, urlOk) && UrlEntryOk(m, ICONURL_KEY, urlOk)
    ensures !mapOk(m.entries) ==> r == Fail(InvalidMap)
    ensures mapOk(m.entries) && !UrlEntryOk(m, DOCURL_KEY, urlOk) ==>
              r == CheckUrlEntry(m, DOCURL_KEY, urlOk)
    ensures mapOk(m.entries) && UrlEntryOk(m, DOCURL_KEY, urlOk) && !UrlEntryOk(m, ICONURL_KEY, urlOk) ==>
              r == CheckUrlEntry(m, ICONURL_KEY, urlOk)
  {
    if !mapOk(m.entries) then Fail(InvalidMap)
    else match CheckUrlEntry(m, DOCURL_KEY, urlOk)
      case Fail(e) => Fail(e)
      case Pass => CheckUrlEntry(m, ICONURL_KEY, urlOk)
  }

  /** Coerces a map reference to metadata: null stays null, metadata is
      returned as it is, and any other map becomes metadata holding the same
      entries. */
  function AsMetadata(m: MapRef): (r: Option<Metadata>)
    ensures r.None? <==> m.NullMap?
    ensures m.MetadataMap? ==> r == Some(m.md)
    ensures m.OtherMap? ==> r.Some? && r.value.entries == m.entries
  {
    match m
    case NullMap => None
    case MetadataMap(md) => Some(md)
    case OtherMap(entries) => Some(Metadata(entries))
  }

  /** Coercion is idempotent: coercing its result again changes nothing. */
  lemma AsMetadataIdempotent(m: MapRef)
    ensures var r := AsMetadata(m);
            r.Some? ==> AsMetadata(MetadataMap(r.value)) == r
  {
  }
}

=== FILE: transmission.dfy ===
/** The record a hub monitor keeps of one message sent from one client to
    another: whether it is still awaiting resolution, the status shown for
    it, and the time at which it was first seen to be resolved.

    Every change is a pure function from the old record to the new one; the
    wall clock reading that the record latches is passed in as `now`. */
module Transmissions {
  import opened Wrappers

  /** Java's Long.MAX_VALUE: the done time of a record not yet seen done. */
  const LONG_MAX: int := 0x7FFF_FFFF_FFFF_FFFF

  /** The three samp.status values a SAMP response may carry. */
  const OK_STATUS: string := "samp.ok"
  const WARNING_STATUS: string := "samp.warning"
  const ERROR_STATUS: string := "samp.error"

  type ClientId = string

  /** A response as far as the record needs it: its status string, which a
      malformed response may lack. */
  datatype Response = Response(status: Option<string>)

  /** A throwable that prevented normal resolution, reduced to its message. */
  datatype SendError = SendError(message: string)

  /** One send. `msgTag` and `msgId` are both absent exactly for a notify. */
  datatype Transmission = Transmission(
    sender: ClientId,
    receiver: ClientId,
    mtype: string,
    msgTag: Option<string>,
    msgId: Option<string>,
    response: Option<Response>,
    error: Option<SendError>,
    senderUnreg: bool,
    receiverUnreg: bool,
    doneTime: int)

  /** What the monitor displays for a record: a short text and whether the
      status stands for completed processing. */
  datatype Status = Status(text: string, isDone: bool)

  const OK: Status := Status("Success", true)
  const WARNING: Status := Status("Warning", true)
  const ERROR: Status := Status("Error", true)
  const NONE: Status := Status("Completed (??)", true)
  const NOTIFIED: Status := Status("Notified", true)
  const EXCEPTION: Status := Status("Exception", true)
  const ORPHANED: Status := Status("Orphaned", true)
  const PENDING: Status := Status("...pending...", false)

  /** The status shown for an unrecognised samp.status string `s`. */
  function Completed(s: string): Status {
    Status("Completed (" + s + ")", true)
  }

  /** A notify: no message id and no tag, so no response will ever come. */
  predicate IsNotify(t: Transmission) {
    t.msgId.None? && t.msgTag.None?
  }

  /** True iff no further change of the record is expected. */
  predicate IsDone(t: Transmission) {
    || t.error.Some?
    || t.response.Some?
    || IsNotify(t)
    || t.receiverUnreg
  }

  /** A freshly sent message: nothing has happened to it yet. */
  function New(sender: ClientId, receiver: ClientId, mtype: string,
               msgTag: Option<string>, msgId: Option<string>): (t: Transmission)
    ensures t.sender == sender && t.receiver == receiver && t.mtype == mtype
    ensures t.msgTag == msgTag && t.msgId == msgId
    ensures t.doneTime == LONG_MAX
    ensures t.response.None? && t.error.None?
    ensures !t.senderUnreg && !t.receiverUnreg
    ensures IsDone(t) <==> msgTag.None? && msgId.None?
    ensures GetStatus(t) == (if msgTag.None? && msgId.None? then NOTIFIED else PENDING)
  {
    Transmission(sender, receiver, mtype, msgTag, msgId, None, None, false, false, LONG_MAX)
  }

  /** The status shown once a response has arrived, from its status string. */
  function ResponseStatus(status: Option<string>): (s: Status)
    ensures s.isDone
    ensures s == OK <==> status == Some(OK_STATUS)
    ensures s == WARNING <==> status == Some(WARNING_STATUS)
    ensures s == ERROR <==> status == Some(ERROR_STATUS)
    // a missing status and the literal status "??" are shown alike
    ensures s == NONE <==> status.None? || status == Some("??")
    ensures s != NOTIFIED && s != EXCEPTION && s != ORPHANED
    ensures status.Some? && status.value !in {OK_STATUS, WARNING_STATUS, ERROR_STATUS}
            ==> s.text == "Completed (" + status.value + ")"
  {
    match status
    case Some(st) =>
      if st == OK_STATUS then OK
      else if st == WARNING_STATUS then WARNING
      else if st == ERROR_STATUS then ERROR
      else
        CompletedTextFacts(st);
        Completed(st)
    case None => NONE
  }

  /** The texts "Completed (s)" are only ever confused with the fixed
      statuses through s == "??". */
  lemma CompletedTextFacts(s: string)
    ensures Completed(s) != OK && Completed(s) != WARNING && Completed(s) != ERROR
    ensures Completed(s) != NOTIFIED && Completed(s) != EXCEPTION && Completed(s) != ORPHANED
    ensures Completed(s) == NONE <==> s == "??"
  {
    var text := "Completed (" + s + ")";
    assert text[0] == 'C';
    assert |text| == |s| + 12;
    if text == NONE.text {
      assert s == text[11..|text| - 1];
    }
  }

  /** The status shown for a record. The checks run in priority order: an
      error, then a response, then a notify, then an unregistered receiver;
      only a record that is not done is pending. */
  function GetStatus(t: Transmission): (s: Status)
    ensures s.isDone == IsDone(t)
    ensures s == PENDING <==> !IsDone(t)
    ensures t.error.Some? ==> s == EXCEPTION
    ensures t.error.None? && t.response.Some? ==> s == ResponseStatus(t.response.value.status)
    ensures s == NOTIFIED <==> t.error.None? && t.response.None? && IsNotify(t)
    ensures s == ORPHANED <==>
              t.error.None? && t.response.None? && !IsNotify(t) && t.receiverUnreg
  {
    if t.error.Some? then EXCEPTION
    else if t.response.Some? then ResponseStatus(t.response.value.status)
    else if IsNotify(t) then NOTIFIED
    else if t.receiverUnreg then ORPHANED
    else PENDING
  }

  /** The done-time latch run after every change: the first change after
      which the record is done stores `now`; the stored time never moves
      again. */
  function FireChange(t: Transmission, now: int): (r: Transmission)
    ensures r.(doneTime := t.doneTime) == t
    ensures t.doneTime != LONG_MAX ==> r.doneTime == t.doneTime
    ensures t.doneTime == LONG_MAX && !IsDone(t) ==> r.doneTime == LONG_MAX
    ensures t.doneTime == LONG_MAX && IsDone(t) ==> r.doneTime == now
  {
    if t.doneTime == LONG_MAX && IsDone(t) then t.(doneTime := now) else t
  }

  /** The changes a record undergoes. A response or error may be set to
      null, as the setters accept any reference. */
  datatype Change =
    | ResponseSet(response: Option<Response>)
    | ErrorSet(error: Option<SendError>)
    | SenderUnregistered
    | ReceiverUnregistered

  /** The field update of a change, before the latch runs. */
  function Apply(t: Transmission, c: Change): (r: Transmission)
    ensures r.doneTime == t.doneTime
  {
    match c
    case ResponseSet(resp) => t.(response := resp)
    case ErrorSet(e) => t.(error := e)
    case SenderUnregistered => t.(senderUnreg := true)
    case ReceiverUnregistered => t.(receiverUnreg := true)
  }

  /** A change followed by the latch, as each setter does. */
  function Step(t: Transmission, c: Change, now: int): Transmission {
    FireChange(Apply(t, c), now)
  }

  function SetResponse(t: Transmission, response: Option<Response>, now: int): (r: Transmission)
    ensures r.response == response
    ensures r.(response := t.response, doneTime := t.doneTime) == t
    ensures response.Some? && t.error.None? ==> GetStatus(r) == ResponseStatus(response.value.status)
    ensures response.Some? ==> IsDone(r)
    ensures r.doneTime == (if t.doneTime == LONG_MAX && IsDone(r) then now else t.doneTime)
  {
    Step(t, ResponseSet(response), now)
  }

  function SetError(t: Transmission, error: Option<SendError>, now: int): (r: Transmission)
    ensures r.error == error
    ensures r.(error := t.error, doneTime := t.doneTime) == t
    ensures error.Some? ==> GetStatus(r) == EXCEPTION && IsDone(r)
    ensures r.doneTime == (if t.doneTime == LONG_MAX && IsDone(r) then now else t.doneTime)
  {
    Step(t, ErrorSet(error), now)
  }

  /** The sender leaving changes neither completion nor the status shown;
      it only runs the latch. */
  function SetSenderUnregistered(t: Transmission, now: int): (r: Transmission)
    ensures r.senderUnreg
    ensures r.(senderUnreg := t.senderUnreg, doneTime := t.doneTime) == t
    ensures IsDone(r) == IsDone(t)
    ensures GetStatus(r) == GetStatus(t)
    ensures r.doneTime == (if t.doneTime == LONG_MAX && IsDone(r) then now else t.doneTime)
  {
    Step(t, SenderUnregistered, now)
  }

  /** The receiver leaving completes the record: an unresolved call becomes
      orphaned. */
  function SetReceiverUnregistered(t: Transmission, now: int): (r: Transmission)
    ensures r.receiverUnreg && IsDone(r)
    ensures r.(receiverUnreg := t.receiverUnreg, doneTime := t.doneTime) == t
    ensures IsDone(t) ==> GetStatus(r) == GetStatus(t)
    ensures !IsDone(t) ==> GetStatus(r) == ORPHANED
    ensures r.doneTime == (if t.doneTime == LONG_MAX && IsDone(r) then now else t.doneTime)
  {
    Step(t, ReceiverUnregistered, now)
  }

  /** A change together with the clock reading taken when it happened. */
  datatype TimedChange = TimedChange(change: Change, at: int)

  /** The record after a history of changes, each followed by the latch. */
  function Run(t: Transmission, history: seq<TimedChange>): Transmission
    decreases |history|
  {
    if |history| == 0 then t
    else Run(Step(t, history[0].change, history[0].at), history[1..])
  }

  /** Reference definition: the clock reading of the first change after
      which the fields say "done", or LONG_MAX when there is none. It looks
      only at the fields and never at the latch. */
  function FirstDoneAt(t: Transmission, history: seq<TimedChange>): int
    decreases |history|
  {
    if |history| == 0 then LONG_MAX
    else
      var t' := Apply(t, history[0].change);
      if IsDone(t') then history[0].at else FirstDoneAt(t', history[1..])
  }

  /** The done time is set at most once: whatever the history, it is the
      time of the first change that left the record done, or it is kept
      from before. Clock readings are below Long.MAX_VALUE. */
  lemma {:induction false} DoneTimeIsFirstCompletion(t: Transmission, history: seq<TimedChange>)
    requires forall i :: 0 <= i < |history| ==> history[i].at < LONG_MAX
    ensures Run(t, history).doneTime ==
              if t.doneTime != LONG_MAX then t.doneTime else FirstDoneAt(t, history)
    decreases |history|
  {
    if |history| != 0 {
      var c, now := history[0].change, history[0].at;
      var t1 := Step(t, c, now);
      assert forall i :: 0 <= i < |history[1..]| ==> history[1..][i].at < LONG_MAX by {
        forall i | 0 <= i < |history[1..]|
          ensures history[1..][i].at < LONG_MAX
        {
          assert history[1..][i] == history[i + 1];
        }
      }
      DoneTimeIsFirstCompletion(t1, history[1..]);
      if t.doneTime == LONG_MAX && !IsDone(Apply(t, c)) {
        assert t1 == Apply(t, c);
      }
    }
  }

  /** A notify is done from the start, yet its done time stays at the
      sentinel until the first change runs the latch. */
  lemma NotifyDoneBeforeLatch(sender: ClientId, receiver: ClientId, mtype: string, now: int)
    ensures var t := New(sender, receiver, mtype, None, None);
            IsDone(t) && t.doneTime == LONG_MAX
            && SetSenderUnregistered(t, now).doneTime == now
  {
  }
}

=== FILE: web_hub_profile.dfy ===
/** The hub side of the SAMP Web Profile: the factory that configures its
    HTTP and XML-RPC server, and the start/stop lifecycle of the profile.

    Sockets, servers and handlers are opaque tokens: a server is described
    by the choices made when it was built (which logging variant, which
    cross-domain policy handlers), not by its behaviour on the network. */
module WebHubProfile {
  import opened Wrappers

  /** The Web Profile's well-known port and XML-RPC path. */
  const WEBSAMP_PORT: int := 21012
  const WEBSAMP_PATH: string := "/"

  /** Private keys issued on the Web Profile carry this prefix and length. */
  const WEB_KEY_PREFIX: string := "wk:"
  const WEB_KEY_LENGTH: nat := 24

  /** The log types `setLogType` accepts besides null. */
  const LOG_TYPES: set<string> := {"http", "rpc", "xml", "none"}

  /** Policy deciding which external origins may reach the server;
      `AcceptAll` is the policy that accepts every origin. */
  datatype OriginAuthorizer = AcceptAll | CustomOrigins(id: nat)

  /** Policy deciding whether a web client may register; `SwingDialog`
      asks the user in a popup. */
  datatype ClientAuthorizer = SwingDialog | CustomClients(id: nat)

  datatype ServerFactory = ServerFactory(
    logType: Option<string>,
    port: int,
    xmlrpcPath: string,
    allowFlash: bool,
    allowSilverlight: bool,
    originAuth: OriginAuthorizer)

  /** A handler serving a legacy cross-domain policy document. */
  datatype PolicyHandler = FlashPolicy(flashAuth: OriginAuthorizer)
                         | SilverlightPolicy(silverlightAuth: OriginAuthorizer)

  /** The CORS-enabled HTTP server; `logging` when it logs HTTP traffic. */
  datatype HttpServer = HttpServer(port: int, originAuth: OriginAuthorizer, logging: bool,
                                   handlers: seq<PolicyHandler>, daemon: bool)

  /** The XML-RPC layer on top of it: plain, or logging at RPC or XML level. */
  datatype ServerVariant = PlainServer | RpcLoggingServer | XmlLoggingServer

  datatype InternalServer = InternalServer(variant: ServerVariant, http: HttpServer, path: string)

  /** Random private-key generator; only its parameters are modelled. */
  datatype KeyGenerator = KeyGenerator(prefix: string, length: nat)

  /** The XML-RPC handler serving the hub's operations to web clients; it
      delegates to the hub's client profile `hubProfile` and keeps a URL
      tracker when `tracksUrls`. */
  datatype WebHandler = WebHandler(hubProfile: nat, authorizer: ClientAuthorizer,
                                   keyGen: KeyGenerator, tracksUrls: bool)

  datatype RunningServer = RunningServer(xmlrpc: InternalServer, handler: WebHandler)

  datatype Profile = Profile(
    factory: ServerFactory,
    authorizer: ClientAuthorizer,
    keyGen: KeyGenerator,
    controlUrls: bool,
    server: Option<RunningServer>)

  /** Why a server could not be built: binding the socket failed, or the
      log type is unknown to the dispatch. */
  datatype ServerError = SocketFailure | UnknownLogType(logType: string)

  /** The log types a factory may be configured with. */
  predicate AcceptedLogType(logType: Option<string>) {
    logType.None? || logType.value in LOG_TYPES
  }

  /** The factory's defaults: no logging, the Web Profile port and path,
      Flash policy served, Silverlight policy not served, every origin
      accepted. */
  function DefaultFactory(): (f: ServerFactory)
    ensures f.logType.None? && AcceptedLogType(f.logType)
    ensures f.allowFlash && !f.allowSilverlight
    ensures f.originAuth == AcceptAll
    ensures f.port == WEBSAMP_PORT && f.xmlrpcPath == WEBSAMP_PATH
  {
    ServerFactory(None, WEBSAMP_PORT, WEBSAMP_PATH, true, false, AcceptAll)
  }

  /** Sets the log type, refusing any value other than null, "http",
      "rpc", "xml" and "none"; a refused value leaves the factory as it
      was. */
  function SetLogType(f: ServerFactory, logType: Option<string>): (r: (ServerFactory, Outcome<ServerError>))
    ensures r.1.Pass? <==> AcceptedLogType(logType)
    ensures r.1.Pass? ==> r.0.logType == logType
    ensures r.1.Fail? ==> r.0 == f && r.1.error == UnknownLogType(logType.value)
    ensures r.0.(logType := f.logType) == f
    ensures AcceptedLogType(f.logType) ==> AcceptedLogType(r.0.logType)
  {
    if AcceptedLogType(logType) then (f.(logType := logType), Pass)
    else (f, Fail(UnknownLogType(logType.value)))
  }

  /** The XML-RPC variant a log type selects. Only "rpc" and "xml" select
      a logging variant; null, "", "none" and "http" select the plain one. */
  function VariantFor(logType: Option<string>): (r: Result<ServerVariant, ServerError>)
    ensures r == Success(RpcLoggingServer) <==> logType == Some("rpc")
    ensures r == Success(XmlLoggingServer) <==> logType == Some("xml")
    ensures r.Success? <==> logType.None? || logType.value in {"rpc", "xml", "none", "http", ""}
    ensures AcceptedLogType(logType) ==> r.Success?
    ensures r.Failure? ==> logType.Some? && r.error == UnknownLogType(logType.value)
  {
    match logType
    case Some(lt) =>
      if lt == "rpc" then Success(RpcLoggingServer)
      else if lt == "xml" then Success(XmlLoggingServer)
      else if lt == "none" || lt == "http" || |lt| == 0 then Success(PlainServer)
      else Failure(UnknownLogType(lt))
    case None => Success(PlainServer)
  }

  /** The policy handlers added to the HTTP server, Flash first. */
  function PolicyHandlers(f: ServerFactory): (hs: seq<PolicyHandler>)
    ensures FlashPolicy(f.originAuth) in hs <==> f.allowFlash
    ensures SilverlightPolicy(f.originAuth) in hs <==> f.allowSilverlight
    ensures forall h :: h in hs ==> h == FlashPolicy(f.originAuth) || h == SilverlightPolicy(f.originAuth)
    ensures |hs| == (if f.allowFlash then 1 else 0) + (if f.allowSilverlight then 1 else 0)
    ensures f.allowFlash ==> hs[0] == FlashPolicy(f.originAuth)
  {
    (if f.allowFlash then [FlashPolicy(f.originAuth)] else [])
    + (if f.allowSilverlight then [SilverlightPolicy(f.originAuth)] else [])
  }

  /** Builds the server: binds the socket (`bindOk` says whether that
      succeeds), chooses the logging HTTP server for "http" alone, installs
      the policy handlers the flags ask for, then picks the XML-RPC variant
      from the log type. */
  function CreateSampXmlRpcServer(f: ServerFactory, bindOk: bool): (r: Result<InternalServer, ServerError>)
    ensures !bindOk ==> r == Failure(SocketFailure)
    ensures bindOk && VariantFor(f.logType).Failure? ==> r == Failure(VariantFor(f.logType).error)
    ensures bindOk ==> (r.Success? <==> VariantFor(f.logType).Success?)
    ensures bindOk && AcceptedLogType(f.logType) ==> r.Success?
    ensures r.Success? ==> r.value.variant == VariantFor(f.logType).value
    ensures r.Success? ==> (r.value.http.logging <==> f.logType == Some("http"))
    ensures r.Success? ==> r.value.http.handlers == PolicyHandlers(f)
    ensures r.Success? ==> r.value.http.daemon && r.value.http.originAuth == f.originAuth
    ensures r.Success? ==> r.value.http.port == f.port && r.value.path == f.xmlrpcPath
  {
    if !bindOk then Failure(SocketFailure)
    else
      var http := HttpServer(f.port, f.originAuth, f.logType == Some("http"), PolicyHandlers(f), true);
      match VariantFor(f.logType)
      case Success(v) => Success(InternalServer(v, http, f.xmlrpcPath))
      case Failure(e) => Failure(e)
  }

  /** The key generator for Web Profile private keys. */
  function CreateKeyGenerator(): (g: KeyGenerator)
    ensures g.prefix == WEB_KEY_PREFIX && g.length == WEB_KEY_LENGTH
  {
    KeyGenerator("wk:", 24)
  }

  /** The default client authorizer pops up a dialog, which cannot be
      built without a display. */
  datatype ProfileError = HeadlessEnvironment

  /** A profile built with the default configuration, not yet running. On a
      JVM without graphics the Swing authorizer's constructor throws, and no
      profile is built. */
  function DefaultProfile(headless: bool): (r: Result<Profile, ProfileError>)
    ensures r.Failure? <==> headless
    ensures r.Failure? ==> r.error == HeadlessEnvironment
    ensures r.Success? ==> !IsRunning(r.value)
    ensures r.Success? ==>
              r.value.factory == DefaultFactory() && r.value.authorizer == SwingDialog && r.value.controlUrls
    ensures r.Success? ==> r.value.keyGen == CreateKeyGenerator()
  {
    if headless then Failure(HeadlessEnvironment)
    else Success(Profile(DefaultFactory(), SwingDialog, CreateKeyGenerator(), true, None))
  }

  predicate IsRunning(p: Profile) {
    p.server.Some?
  }

  /** Starts the profile for the hub's client profile `hubProfile`. A
      running profile keeps its server; a stopped one builds a server and
      becomes running, or stays stopped if building fails. */
  function Start(p: Profile, hubProfile: nat, bindOk: bool): (r: (Profile, Outcome<ServerError>))
    ensures IsRunning(p) ==> r == (p, Pass)
    ensures !IsRunning(p) ==>
              (r.1.Pass? <==> CreateSampXmlRpcServer(p.factory, bindOk).Success?)
    ensures r.1.Pass? ==> IsRunning(r.0)
    ensures r.1.Fail? ==> r.0 == p
    ensures !IsRunning(p) && r.1.Fail? ==> r.1.error == CreateSampXmlRpcServer(p.factory, bindOk).error
    ensures !IsRunning(p) && r.1.Pass? ==>
              r.0.server.value.xmlrpc == CreateSampXmlRpcServer(p.factory, bindOk).value
    ensures r.0.(server := p.server) == p
    ensures !IsRunning(p) && r.1.Pass? ==>
              r.0.server.value.handler ==
                WebHandler(hubProfile, p.authorizer, p.keyGen, p.controlUrls)
  {
    if IsRunning(p) then (p, Pass)
    else match CreateSampXmlRpcServer(p.factory, bindOk)
      case Failure(e) => (p, Fail(e))
      case Success(xServer) =>
        var handler := WebHandler(hubProfile, p.authorizer, p.keyGen, p.controlUrls);
        (p.(server := Some(RunningServer(xServer, handler))), Pass)
  }

  /** Stops the profile: afterwards it is not running, and nothing else
      about it changes. Stopping a stopped profile does nothing. */
  function Stop(p: Profile): (q: Profile)
    ensures !IsRunning(q)
    ensures !IsRunning(p) ==> q == p
    ensures q.(server := p.server) == p
  {
    if !IsRunning(p) then p else p.(server := None)
  }

  /** Starting twice is starting once. */
  lemma StartIdempotent(p: Profile, hubProfile: nat, bindOk: bool, hubProfile': nat, bindOk': bool)
    ensures var (q, _) := Start(p, hubProfile, bindOk);
            IsRunning(q) ==> Start(q, hubProfile', bindOk') == (q, Pass)
  {
  }

  /** A factory setter, as one configuration step. */
  datatype FactoryOp =
    | SetLogTypeOp(logType: Option<string>)
    | SetPortOp(port: int)
    | SetXmlrpcPathOp(path: string)
    | SetAllowFlashOp(allowFlash: bool)
    | SetAllowSilverlightOp(allowSilverlight: bool)
    | SetOriginAuthorizerOp(originAuth: OriginAuthorizer)

  /** One setter call; a refused log type leaves the factory as it was. */
  function ApplyOp(f: ServerFactory, op: FactoryOp): ServerFactory {
    match op
    case SetLogTypeOp(lt) => SetLogType(f, lt).0
    case SetPortOp(port) => f.(port := port)
    case SetXmlrpcPathOp(path) => f.(xmlrpcPath := path)
    case SetAllowFlashOp(b) => f.(allowFlash := b)
    case SetAllowSilverlightOp(b) => f.(allowSilverlight := b)
    case SetOriginAuthorizerOp(a) => f.(originAuth := a)
  }

  function Configure(f: ServerFactory, ops: seq<FactoryOp>): ServerFactory
    decreases |ops|
  {
    if |ops| == 0 then f else Configure(ApplyOp(f, ops[0]), ops[1..])
  }

  /** No sequence of setter calls can store a log type the setter refuses. */
  lemma {:induction false} ConfigureKeepsAcceptedLogType(f: ServerFactory, ops: seq<FactoryOp>)
    requires AcceptedLogType(f.logType)
    ensures AcceptedLogType(Configure(f, ops).logType)
    decreases |ops|
  {
    if |ops| != 0 {
      ConfigureKeepsAcceptedLogType(ApplyOp(f, ops[0]), ops[1..]);
    }
  }

  /** Hence a factory configured only through its setters never meets the
      unknown-log-type error when it builds a server: with a bound socket
      the build succeeds. */
  lemma ConfiguredFactoryBuildsServer(ops: seq<FactoryOp>)
    ensures CreateSampXmlRpcServer(Configure(DefaultFactory(), ops), true).Success?
  {
    ConfigureKeepsAcceptedLogType(DefaultFactory(), ops);
  }
}

=== FILE: wrappers.dfy ===
/** Failure-carrying datatypes shared by the hub models: Option stands for a
    Java reference that may be null, Result and Outcome for a call that may
    throw. */
module Wrappers {

  /** A value that may be absent (a Java null). */
  datatype Option<+T> = None | Some(value: T)

  /** The value a call returns, or the exception it throws. */
  datatype Result<+R, +E> = Success(value: R) | Failure(error: E)

  /** Completion of a void call: it returned normally, or threw `error`. */
  datatype Outcome<+E> = Pass | Fail(error: E)
}
